=== FILE: README.md ===
# sequence-jdbc: segment allocation, modelled in Dafny

The service hands out integer values per named sequence. It reserves blocks
("segments") of values in a shared table row per name. The row holds a
high-water mark, and the service hands the block out of an in-memory range
cursor. This project models three pieces as a functional state machine:

- the range cursor (`NTValueRange`);
- one store round-trip (`fetchSequence`): read the mark, then insert a new row or compare-and-swap the mark;
- the driver: `next`, the retry loop `fetchRange`, `init`, the validating setters, and the interface's argument-less `next()`.

The state is the store (a map from name to mark) and this process's cache (a
map from name to range). The configuration is a record. Java `null` is
`None`. The exceptions are values of `SequenceApi.Error`:
`IllegalArgument` and `Unavailable` (the RuntimeException thrown when no range
could be fetched).

Other processes are not computed. Each round-trip takes an `Attempt` value
instead:

- `StoreFault` means a connection or statement error, with nothing written;
- `Go(rival)` means the statements ran. `rival` says what other processes did to the row between the SELECT and the write: nothing, wrote a value, or deleted it.

A retry loop consumes a sequence of such attempts. So a lost race or a failing
database shows up as a failed attempt, exactly as in the code.

Files: `wrappers.dfy` (Option, Result), `sequence_api.dfy` (interface
constants, errors, name check), `value_range.dfy` (the cursor),
`range_lemmas.dfy` (multi-call cursor properties), `store.dfy` (the table and
its three statements), `sequence_service.dfy` (configuration, round-trip,
retry loop, driver), `service_lemmas.dfy` (per-case and multi-call protocol
properties).

Where the repository's own text promises more than the code delivers, the
model follows the code:

- Values are not unique across segments, although the interface's Javadoc calls each value unique (NTSequence.java lines 27 and 39) and the repository's test asserts it. A refreshed segment is `[v, v+step]`, starting at the stored mark `v`, not at `v+1`. Its first value therefore repeats the last value of the previous segment (`ServiceLemmas.RefreshRepeatsLastValue`, `ServiceLemmas.FirstTwoValuesCoincide`). A refreshed segment has `step+1` values; a first or reset segment has `step`.
- The empty name is accepted, although the Javadoc of `next(name)` asks for a non-empty name of 1 to 64 characters (NTSequence.java line 38). Only null and names longer than 64 UTF-16 code units are rejected.

Two further behaviours of the code are worth stating:

- When `v+step` passes `maxValue`, the mark is reset to `minValue+step-1`. No clamped, shorter segment up to `maxValue` is produced.
- On unbounded integers, an exhausted range's counter is not clamped. It grows by one on every call.

## Model

| member | source | states |
|---|---|---|
| SequenceApi.NameBounds | src/main/java/cn/ntopic/sequence/NTSequence.java:17-22 | "DEFAULT" is 7 UTF-16 units and passes the name check; the empty name passes; null fails; a name passes iff its UTF-16 length is at most 64, so more than 64 characters always fail and at most 32 always pass |
| SequenceApi.SupplementaryCharactersCountTwice | src/main/java/cn/ntopic/sequence/impl/NTSequenceImpl.java:86-88 | a name of 33 characters outside the BMP is 66 UTF-16 units long and is rejected, as String.length() judges it |
| SequenceApi.Utf16Length | src/main/java/cn/ntopic/sequence/impl/NTSequenceImpl.java:86 | the length String.length() reports, in UTF-16 units: at least the character count and at most twice it, equal to it when every character is in the BMP, and twice it when none is |
| ValueRanges.From | src/main/java/cn/ntopic/sequence/model/NTValueRange.java:34-50 | construction succeeds iff 0 < start <= finish, otherwise IllegalArgument; a built range is fresh (counter start-1) and has finish-start+1 values to give |
| ValueRanges.NextValue | src/main/java/cn/ntopic/sequence/model/NTValueRange.java:63-70 | the counter rises by exactly one whether or not a value comes back; start and finish never change; a value comes back iff values remain, it is the new counter and lies in [start, finish]; a fresh range first returns start |
| RangeLemmas.DrainValues | src/main/java/cn/ntopic/sequence/model/NTValueRange.java:63-70 | the i-th of n calls returns counter+1+i while that is <= finish, and nothing afterwards |
| RangeLemmas.AfterCounter | src/main/java/cn/ntopic/sequence/model/NTValueRange.java:63-70 | after n calls the counter has risen by exactly n and start and finish are unchanged |
| RangeLemmas.CounterNotClamped | src/main/java/cn/ntopic/sequence/model/NTValueRange.java:64-69 | once exhausted, the counter keeps growing past finish with every call |
| RangeLemmas.FreshRangeYields | src/main/java/cn/ntopic/sequence/model/NTValueRange.java:42-69 | a fresh range yields start, start+1, ..., finish in order, then nothing |
| RangeLemmas.ValuesInBounds | src/main/java/cn/ntopic/sequence/model/NTValueRange.java:35-67 | every value a valid range yields lies in [start, finish] |
| RangeLemmas.ConsecutiveIncreasing | src/main/java/cn/ntopic/sequence/model/NTValueRange.java:64-69 | values from one range are consecutive and strictly increasing: call j's value is call i's value plus j-i |
| RangeLemmas.ExhaustionIsPermanent | src/main/java/cn/ntopic/sequence/model/NTValueRange.java:64-69 | once a call returns nothing, every later call returns nothing |
| RangeLemmas.CountYields | src/main/java/cn/ntopic/sequence/model/NTValueRange.java:64-69 | of n calls exactly min(n, remaining) return a value |
| RangeLemmas.FreshRangeYieldCount | src/main/java/cn/ntopic/sequence/model/NTValueRange.java:42-69 | a fresh range called at least finish-start+1 times yields exactly finish-start+1 values |
| SequenceStore.Read | src/main/java/cn/ntopic/sequence/impl/NTSequenceImpl.java:163-169 | the SELECT finds a value iff the name has a row, and it is that row's value |
| SequenceStore.Insert | src/main/java/cn/ntopic/sequence/impl/NTSequenceImpl.java:173-179 | the INSERT is rejected iff the name already has a row; otherwise one row is added holding the value and no other row changes |
| SequenceStore.Cas | src/main/java/cn/ntopic/sequence/impl/NTSequenceImpl.java:195-202 | the conditional UPDATE affects one row iff the row still holds the expected value, and then only that row changes; otherwise the table is unchanged |
| SequenceService.DefaultConfigValid | src/main/java/cn/ntopic/sequence/impl/NTSequenceImpl.java:34-54 | the field initialisers pass every setter check and have minValue < maxValue, so init accepts them |
| SequenceService.SetRetryTimes | src/main/java/cn/ntopic/sequence/impl/NTSequenceImpl.java:255-261 | rejects retryTimes <= 0 with IllegalArgument; otherwise only that field changes; valid configurations stay valid |
| SequenceService.SetTableName | src/main/java/cn/ntopic/sequence/impl/NTSequenceImpl.java:267-273 | rejects a null or empty table name; otherwise only that field changes |
| SequenceService.SetStep | src/main/java/cn/ntopic/sequence/impl/NTSequenceImpl.java:279-285 | rejects step <= 0; otherwise only that field changes |
| SequenceService.SetMinValue | src/main/java/cn/ntopic/sequence/impl/NTSequenceImpl.java:291-297 | rejects minValue <= 0; otherwise only that field changes |
| SequenceService.SetMaxValue | src/main/java/cn/ntopic/sequence/impl/NTSequenceImpl.java:303-309 | rejects maxValue <= 0; otherwise only that field changes |
| SequenceService.FetchSequence | src/main/java/cn/ntopic/sequence/impl/NTSequenceImpl.java:151-216 | a store error changes nothing; any range obtained is valid and fresh, the row then holds its finish, its size is step or step+1 (no partial segment), and its finish is <= maxValue or is the reset value; rows of other names never change |
| SequenceService.FetchLoop | src/main/java/cn/ntopic/sequence/impl/NTSequenceImpl.java:125-146 | at most one round-trip per attempt; all attempts are used when none succeeds; the range returned is valid and fresh, and the row holds its finish; other rows never change |
| SequenceService.FetchLoopFirstSuccess | src/main/java/cn/ntopic/sequence/impl/NTSequenceImpl.java:126-145 | the loop returns the first round-trip that yields a range, all earlier ones having failed; when it returns none, every round-trip failed, and the table is what they left |
| SequenceService.FetchRange | src/main/java/cn/ntopic/sequence/impl/NTSequenceImpl.java:125-146 | at most retryTimes round-trips, exactly retryTimes when none succeeds; the range returned is valid and fresh and the row holds its finish |
| SequenceService.Refill | src/main/java/cn/ntopic/sequence/impl/NTSequenceImpl.java:104-119 | after the fetch, a range is cached with its first value drawn and that value (the range start) returned; with no range the call is Unavailable and the cache is as it was; the store is what the fetch left |
| SequenceService.Next | src/main/java/cn/ntopic/sequence/impl/NTSequenceImpl.java:84-120 | IllegalArgument iff the name is null or longer than 64 UTF-16 units, and then nothing changes; any other failure is Unavailable and leaves no cache entry for the name; a value is the name's cached counter and lies in its range; cache validity is preserved; other names' entries and rows never change |
| SequenceService.NextDefault | src/main/java/cn/ntopic/sequence/NTSequence.java:30-32 | next() is next("DEFAULT") and never raises IllegalArgument |
| SequenceService.Init | src/main/java/cn/ntopic/sequence/impl/NTSequenceImpl.java:73-81 | rejects minValue >= maxValue and changes nothing; otherwise it is one draw of the default sequence |
| ServiceLemmas.FirstUse | src/main/java/cn/ntopic/sequence/impl/NTSequenceImpl.java:169-181 | with no row, the row is created holding minValue+step-1 and the range is [minValue, minValue+step-1] |
| ServiceLemmas.FirstUseLostRace | src/main/java/cn/ntopic/sequence/impl/NTSequenceImpl.java:173-182 | with no row at read, a rival's insert makes this insert fail and the rival's row stays |
| ServiceLemmas.Extend | src/main/java/cn/ntopic/sequence/impl/NTSequenceImpl.java:186-204 | a row holding v > 0 with v+step <= maxValue becomes v+step and the range is [v, v+step], starting at v |
| ServiceLemmas.Wrap | src/main/java/cn/ntopic/sequence/impl/NTSequenceImpl.java:186-204 | a row whose v+step exceeds maxValue is reset to minValue+step-1 and the range is [minValue, minValue+step-1] |
| ServiceLemmas.CasOnlyIfUnchanged | src/main/java/cn/ntopic/sequence/impl/NTSequenceImpl.java:186-204 | the write lands iff the row still holds the value read; otherwise the attempt fails and the rivals' table stays |
| ServiceLemmas.NonPositiveMarkBurnsSegment | src/main/java/cn/ntopic/sequence/impl/NTSequenceImpl.java:195-204 | a stored value v <= 0 with v+step <= maxValue is advanced by the update, but the range constructor rejects [v, v+step], so the attempt fails anyway |
| ServiceLemmas.FaultsChangeNothing | src/main/java/cn/ntopic/sequence/impl/NTSequenceImpl.java:126-145 | round-trips that all hit store errors yield nothing and change nothing |
| ServiceLemmas.RetryAfterLostRace | src/main/java/cn/ntopic/sequence/impl/NTSequenceImpl.java:126-145 | with 0 < x and x+step <= maxValue, after losing the race to a rival that wrote x, the second round-trip reads x and owns [x, x+step] |
| ServiceLemmas.CacheHit | src/main/java/cn/ntopic/sequence/impl/NTSequenceImpl.java:92-98 | a cached range with values left serves counter+1; the store and the set of cached names are unchanged, and the entry keeps its bounds |
| ServiceLemmas.RefillServesRangeStart | src/main/java/cn/ntopic/sequence/impl/NTSequenceImpl.java:101-115 | a missing or exhausted entry is replaced by the fetched range after its first value, which is returned; if the fetch fails the call is Unavailable and the name has no entry |
| ServiceLemmas.AllAttemptsFail | src/main/java/cn/ntopic/sequence/impl/NTSequenceImpl.java:105-119 | when every round-trip hits a store error, next is Unavailable, the exhausted entry is gone and the store is unchanged (failures by a lost race or a rejected range may still change the store; see SequenceService.Next and ServiceLemmas.RefillServesRangeStart) |
| ServiceLemmas.FirstValueIsMin | src/main/java/cn/ntopic/sequence/impl/NTSequenceImpl.java:151-181 | the first value of a new sequence is minValue and the row records minValue+step-1 |
| ServiceLemmas.RefreshRepeatsLastValue | src/main/java/cn/ntopic/sequence/impl/NTSequenceImpl.java:186-204 | when finish+step <= maxValue and the first round-trip is uncontended, after draining the segment ending at the stored mark, the next value repeats that segment's last value |
| ServiceLemmas.FirstTwoValuesCoincide | src/main/java/cn/ntopic/sequence/impl/NTSequenceImpl.java:84-120 | with step 1, the first two next() calls on an empty table both return 1 |

## Left out

- JDBC plumbing is not modelled: the DataSource, connections, SQL text, prepared statements, result sets, closeQuietly and logging. The table is a map with read, insert-if-absent and compare-and-swap.
- Threads, `synchronized`, `AtomicLong` and `ConcurrentHashMap` are not modelled. Calls are sequential. Other processes appear only as the `Rival` change between a round-trip's read and its write.
- The range cache is a static field shared by every instance of the service. The model has one cache per state.
- Arithmetic is on unbounded integers. The 64-bit overflow of `v+step` and `minValue+step-1` is not modelled.
- ValueRanges.NextValue: the 64-bit wrap of the counter is not modelled. In the code, a range whose finish is Long.MAX_VALUE returns Long.MIN_VALUE on the call after its last value, so there exhaustion is not permanent and that value lies outside [start, finish]; the model returns nothing instead. The range lemmas hold only for counters that stay below 2^63-1.
- SequenceService.FetchRange: the wrap of the `int` loop counter is not modelled. With retryTimes equal to Integer.MAX_VALUE the loop test is always true, so the code retries forever when every attempt fails; the model stops after retryTimes attempts.
- SequenceApi.NameBounds: Java strings may hold unpaired surrogates, which a Dafny string cannot. Names are lengths of well-formed Unicode text, counted in UTF-16 units.
- The constructor's null-DataSource check, the getters, `toString`, and the log line of `init` are not modelled.
- `createTable`, called by the repository's test, is not part of this model.
- The test's multithreaded uniqueness assertion is not proved. It does not hold: by `ServiceLemmas.RefreshRepeatsLastValue`, with the test's step of 5 a process that drained [1, 5] is next served 5 again from [5, 10]; `ServiceLemmas.FirstTwoValuesCoincide` gives the step-1 case.
- Java `long` for `step`, `minValue` and `maxValue`, and `int` for `retryTimes`, are all unbounded integers.
- SequenceService.FetchRange and SequenceService.Next require at least retryTimes attempt outcomes. This is only how the environment is supplied; the code places no such demand on callers.

=== FILE: range_lemmas.dfy ===
/**
 * Properties of a range cursor over many nextValue calls: which values a run
 * yields, that they are consecutive and increasing, that exhaustion is
 * permanent, and exactly how many calls yield a value.
 */
module RangeLemmas {

  import opened Wrappers
  import opened ValueRanges

  /** The i-th call of a run returns counter+1+i while that has not passed `finish`, and nothing after. */
  lemma {:induction false} DrainValues(r: Range, n: nat)
    ensures |Drain(r, n)| == n
    ensures forall i :: 0 <= i < n ==>
      Drain(r, n)[i] == (if r.current + 1 + i <= r.finish then Some(r.current + 1 + i) else None)
    decreases n
  {
    if n > 0 {
      var d := NextValue(r);
      DrainValues(d.range, n - 1);
      forall i | 0 <= i < n
        ensures Drain(r, n)[i] == (if r.current + 1 + i <= r.finish then Some(r.current + 1 + i) else None)
      {
        if i > 0 {
          assert Drain(r, n)[i] == Drain(d.range, n - 1)[i - 1];
        }
      }
    }
  }

  /** Every call raises the counter by exactly one, and start and finish never change. */
  lemma {:induction false} AfterCounter(r: Range, n: nat)
    ensures After(r, n) == r.(current := r.current + n)
    decreases n
  {
    if n > 0 {
      AfterCounter(NextValue(r).range, n - 1);
    }
  }

  /** The counter is not clamped: after exhaustion it keeps growing past `finish` with every call. */
  lemma CounterNotClamped(r: Range, n: nat)
    requires Remaining(r) == 0
    ensures After(r, n).current == r.current + n
    ensures n > 0 ==> After(r, n).current > r.finish
  {
    AfterCounter(r, n);
  }

  /** A fresh range yields start, start+1, ..., finish in that order, then nothing. */
  lemma FreshRangeYields(r: Range, n: nat)
    requires Valid(r) && Fresh(r)
    ensures forall i :: 0 <= i < n ==>
      Drain(r, n)[i] == (if i <= r.finish - r.start then Some(r.start + i) else None)
  {
    DrainValues(r, n);
  }

  /** Any value a valid range yields lies within [start, finish]. */
  lemma ValuesInBounds(r: Range, n: nat)
    requires Valid(r)
    ensures forall i :: 0 <= i < n && Drain(r, n)[i].Some? ==>
      r.start <= Drain(r, n)[i].value <= r.finish
  {
    DrainValues(r, n);
  }

  /** A later call that yields a value means every earlier call did too, with a value exactly that much smaller. */
  lemma ConsecutiveIncreasing(r: Range, n: nat, i: nat, j: nat)
    requires i < j < n
    requires Drain(r, n)[j].Some?
    ensures Drain(r, n)[i].Some?
    ensures Drain(r, n)[j].value == Drain(r, n)[i].value + (j - i)
    ensures Drain(r, n)[i].value < Drain(r, n)[j].value
  {
    DrainValues(r, n);
  }

  /** Once a call returns nothing, every later call returns nothing. */
  lemma ExhaustionIsPermanent(r: Range, n: nat, i: nat, j: nat)
    requires i <= j < n
    requires Drain(r, n)[i].None?
    ensures Drain(r, n)[j].None?
  {
    DrainValues(r, n);
  }

  /** Of n calls, exactly min(n, Remaining(r)) yield a value. */
  lemma {:induction false} CountYields(r: Range, n: nat)
    ensures CountPresent(Drain(r, n)) == (if n <= Remaining(r) then n else Remaining(r))
    decreases n
  {
    if n > 0 {
      var d := NextValue(r);
      CountYields(d.range, n - 1);
      assert Drain(r, n)[1..] == Drain(d.range, n - 1);
    }
  }

  /** A fresh range called at least finish - start + 1 times yields exactly finish - start + 1 values. */
  lemma FreshRangeYieldCount(r: Range, n: nat)
    requires Valid(r) && Fresh(r)
    requires n >= r.finish - r.start + 1
    ensures CountPresent(Drain(r, n)) == r.finish - r.start + 1
  {
    CountYields(r, n);
  }
}

=== FILE: sequence_api.dfy ===
/**
 * The public face of the sequence service (the NTSequence interface):
 * its two constants and the exceptions callers can observe.
 */
module SequenceApi {

  import opened Wrappers

  /** Name of the sequence served by the argument-less next(). */
  const DefaultSequenceName: string := "DEFAULT"

  /** Longest sequence name next accepts. */
  const MaxSequenceNameLength: nat := 64

  /**
   * The exceptions of the service:
   * IllegalArgument — java.lang.IllegalArgumentException (bad name, bad setting, bad range bounds);
   * Unavailable     — the RuntimeException thrown when no range could be obtained.
   */
  datatype Error = IllegalArgument | Unavailable

  /**
   * Length of a string as Java's String.length() counts it: in UTF-16 code
   * units, so a character outside the Basic Multilingual Plane counts twice.
   */
  function Utf16Length(s: string): (n: nat)
    ensures |s| <= n <= 2 * |s|
    ensures (forall i :: 0 <= i < |s| ==> s[i] as int <= 0xFFFF) ==> n == |s|
    ensures (forall i :: 0 <= i < |s| ==> s[i] as int > 0xFFFF) ==> n == 2 * |s|
  {
    if s == [] then 0
    else (if s[0] as int > 0xFFFF then 2 else 1) + Utf16Length(s[1..])
  }

  /** The name check next performs before anything else: non-null and at most 64 UTF-16 units; empty is fine. */
  predicate NameAccepted(name: Option<string>)
  {
    name.Some? && Utf16Length(name.value) <= MaxSequenceNameLength
  }

  /**
   * The name check in numbers: the default name (7 units) and the empty name
   * pass; null fails; more than 64 characters always fails, at most 32 always
   * passes, and in between it depends on how many lie outside the BMP.
   */
  lemma NameBounds(name: string)
    ensures Utf16Length(DefaultSequenceName) == 7 && NameAccepted(Some(DefaultSequenceName))
    ensures NameAccepted(Some(""))
    ensures !NameAccepted(None)
    ensures NameAccepted(Some(name)) <==> Utf16Length(name) <= 64
    ensures |name| > 64 ==> !NameAccepted(Some(name))
    ensures |name| <= 32 ==> NameAccepted(Some(name))
  {
    assert forall i :: 0 <= i < |DefaultSequenceName| ==> DefaultSequenceName[i] as int <= 0xFFFF;
  }

  /** 33 emoji are 66 UTF-16 units, so the name is rejected although it has only 33 characters. */
  lemma SupplementaryCharactersCountTwice()
    ensures !NameAccepted(Some(seq(33, _ => '\U{1F600}')))
  {
    var name: string := seq(33, _ => '\U{1F600}');
    assert forall i :: 0 <= i < |name| ==> name[i] as int > 0xFFFF;
  }
}

=== FILE: sequence_service.dfy ===
/**
 * The JDBC-backed sequence service (NTSequenceImpl) as a functional state
 * machine: the configuration and its validating setters, one store
 * round-trip (fetchSequence), the bounded retry loop (fetchRange), and the
 * cached-range driver (next, init and the interface's argument-less next()).
 *
 * Rival processes and store failures are not computed but given: each store
 * round-trip takes one Attempt saying whether the store failed and what other
 * processes did to the row between the read and the write.
 */
module SequenceService {

  import opened Wrappers
  import opened SequenceApi
  import opened ValueRanges
  import opened SequenceStore

  /** The service's settings: retry budget, table name, segment size, value bounds. */
  datatype Config = Config(retryTimes: int, tableName: string, step: int, minValue: int, maxValue: int)

  /** The field initialisers of the service. */
  const DefaultConfig: Config := Config(10, "nt_sequence", 1000, 1, 99999999)

  /** What the initialisers establish and every setter keeps. */
  predicate ValidConfig(c: Config)
  {
    c.retryTimes > 0 && |c.tableName| > 0 && c.step > 0 && c.minValue > 0 && c.maxValue > 0
  }

  /** The field initialisers satisfy the setters' checks. */
  lemma DefaultConfigValid()
    ensures ValidConfig(DefaultConfig)
    ensures DefaultConfig.minValue < DefaultConfig.maxValue
  {
  }

  /** The stored value written for a new or reset sequence: the end of the first segment. */
  function InitialValue(c: Config): int
  {
    c.minValue + c.step - 1
  }

  // ---------------------------------------------------------------- setters

  function SetRetryTimes(c: Config, retryTimes: int): (r: Result<Config, Error>)
    ensures r.Failure? <==> retryTimes <= 0
    ensures r.Failure? ==> r.error == IllegalArgument
    ensures r.Success? ==> r.value.retryTimes == retryTimes && r.value.(retryTimes := c.retryTimes) == c
    ensures r.Success? && ValidConfig(c) ==> ValidConfig(r.value)
  {
    if retryTimes <= 0 then Failure(IllegalArgument) else Success(c.(retryTimes := retryTimes))
  }

  /** A null table name is None. */
  function SetTableName(c: Config, tableName: Option<string>): (r: Result<Config, Error>)
    ensures r.Failure? <==> tableName.None? || tableName.value == ""
    ensures r.Failure? ==> r.error == IllegalArgument
    ensures r.Success? ==> r.value.tableName == tableName.value && r.value.(tableName := c.tableName) == c
    ensures r.Success? && ValidConfig(c) ==> ValidConfig(r.value)
  {
    if tableName.None? || |tableName.value| == 0 then Failure(IllegalArgument)
    else Success(c.(tableName := tableName.value))
  }

  function SetStep(c: Config, step: int): (r: Result<Config, Error>)
    ensures r.Failure? <==> step <= 0
    ensures r.Failure? ==> r.error == IllegalArgument
    ensures r.Success? ==> r.value.step == step && r.value.(step := c.step) == c
    ensures r.Success? && ValidConfig(c) ==> ValidConfig(r.value)
  {
    if step <= 0 then Failure(IllegalArgument) else Success(c.(step := step))
  }

  function SetMinValue(c: Config, minValue: int): (r: Result<Config, Error>)
    ensures r.Failure? <==> minValue <= 0
    ensures r.Failure? ==> r.error == IllegalArgument
    ensures r.Success? ==> r.value.minValue == minValue && r.value.(minValue := c.minValue) == c
    ensures r.Success? && ValidConfig(c) ==> ValidConfig(r.value)
  {
    if minValue <= 0 then Failure(IllegalArgument) else Success(c.(minValue := minValue))
  }

  function SetMaxValue(c: Config, maxValue: int): (r: Result<Config, Error>)
    ensures r.Failure? <==> maxValue <= 0
    ensures r.Failure? ==> r.error == IllegalArgument
    ensures r.Success? ==> r.value.maxValue == maxValue && r.value.(maxValue := c.maxValue) == c
    ensures r.Success? && ValidConfig(c) ==> ValidConfig(r.value)
  {
    if maxValue <= 0 then Failure(IllegalArgument) else Success(c.(maxValue := maxValue))
  }

  // ------------------------------------------------------- one round-trip

  /**
   * How one round-trip goes. StoreFault: getting the connection, the SELECT
   * or the write statement raised an error and nothing was written. Go: the
   * statements ran, with `rival` describing what other processes did to the
   * row between the SELECT and the write.
   */
  datatype Attempt = StoreFault | Go(rival: Rival)

  /** Outcome of one round-trip: the range now owned (if any) and the table afterwards. */
  datatype Fetch = Fetch(range: Option<Range>, store: Store)

  /** A range whose construction raised IllegalArgumentException ends the attempt like any other error. */
  function Built(r: Result<Range, Error>): Option<Range>
  {
    if r.Success? then Some(r.value) else None
  }

  /** Same row for every name other than `name`. */
  ghost predicate OthersUnchanged(s: Store, t: Store, name: string)
  {
    && (forall m :: m != name ==> (m in t <==> m in s))
    && (forall m :: m != name && m in s ==> t[m] == s[m])
  }

  /**
   * fetchSequence. No row: insert the initial value and own [minValue,
   * initial]. Row holding v: compare-and-swap it to v+step and own
   * [v, v+step] — or, when v+step passes maxValue, to the initial value and
   * own [minValue, initial]. A duplicate-key insert, a zero-row update or an
   * invalid range all end the attempt without a range.
   */
  function FetchSequence(c: Config, s: Store, name: string, a: Attempt): (f: Fetch)
    requires ValidConfig(c)
    ensures OthersUnchanged(s, f.store, name)
    ensures a.StoreFault? ==> f == Fetch(None, s)
    ensures f.range.Some? ==> Valid(f.range.value) && Fresh(f.range.value)
    ensures f.range.Some? ==> Read(f.store, name) == Some(f.range.value.finish)
    ensures f.range.Some? ==> f.range.value.finish - f.range.value.start in {c.step - 1, c.step}
    ensures f.range.Some? ==> f.range.value.finish <= c.maxValue || f.range.value.finish == InitialValue(c)
  {
    match a
    case StoreFault => Fetch(None, s)
    case Go(rival) =>
      var initValue := InitialValue(c);
      match Read(s, name)
      case None =>
        var atWrite := Interfere(s, name, rival);
        (match Insert(atWrite, name, initValue)
         case None => Fetch(None, atWrite)
         case Some(w) =>
           if w.count > 0 then Fetch(Built(From(c.minValue, initValue)), w.store)
           else Fetch(None, w.store))
      case Some(v) =>
        var reset := v + c.step > c.maxValue;
        var newValue := if reset then initValue else v + c.step;
        var w := Cas(Interfere(s, name, rival), name, v, newValue);
        if w.count > 0 then Fetch(Built(From(if reset then c.minValue else v, newValue)), w.store)
        else Fetch(None, w.store)
  }

  // ------------------------------------------------------- the retry loop

  /**
   * The table after the first k round-trips of `attempts`, each starting
   * from the table the previous one left.
   */
  function Replay(c: Config, s: Store, name: string, attempts: seq<Attempt>, k: nat): Store
    requires ValidConfig(c)
    requires k <= |attempts|
    decreases k
  {
    if k == 0 then s
    else Replay(c, FetchSequence(c, s, name, attempts[0]).store, name, attempts[1..], k - 1)
  }

  /** Round-trip j of `attempts` produced no range. */
  predicate FailsAt(c: Config, s: Store, name: string, attempts: seq<Attempt>, j: nat)
    requires ValidConfig(c)
    requires j < |attempts|
  {
    FetchSequence(c, Replay(c, s, name, attempts, j), name, attempts[j]).range.None?
  }

  /** Result of the retry loop: the range obtained (if any), the table, and how many round-trips ran. */
  datatype Fetched = Fetched(range: Option<Range>, store: Store, used: nat)

  /**
   * Run round-trips in order until one yields a range; every failure,
   * whether a store error, a duplicate insert or a lost compare-and-swap,
   * just moves on to the next.
   */
  function FetchLoop(c: Config, s: Store, name: string, attempts: seq<Attempt>): (r: Fetched)
    requires ValidConfig(c)
    ensures r.used <= |attempts|
    ensures r.range.Some? ==> 0 < r.used
    ensures r.range.None? ==> r.used == |attempts|
    ensures r.range.Some? ==> Valid(r.range.value) && Fresh(r.range.value)
    ensures r.range.Some? ==> Read(r.store, name) == Some(r.range.value.finish)
    ensures OthersUnchanged(s, r.store, name)
    decreases |attempts|
  {
    if attempts == [] then Fetched(None, s, 0)
    else
      var f := FetchSequence(c, s, name, attempts[0]);
      if f.range.Some? then Fetched(f.range, f.store, 1)
      else
        var rest := FetchLoop(c, f.store, name, attempts[1..]);
        Fetched(rest.range, rest.store, rest.used + 1)
  }

  /** Shifting the first round-trip off the front of `attempts`. */
  lemma ReplayShift(c: Config, s: Store, name: string, attempts: seq<Attempt>, j: nat)
    requires ValidConfig(c)
    requires j < |attempts| - 1
    ensures FailsAt(c, s, name, attempts, j + 1)
      == FailsAt(c, FetchSequence(c, s, name, attempts[0]).store, name, attempts[1..], j)
  {
    assert attempts[1..][j] == attempts[j + 1];
  }

  /**
   * The retry loop returns the first round-trip that yields a range, after
   * failures only; when it returns none, every round-trip failed.
   */
  lemma {:induction false} FetchLoopFirstSuccess(c: Config, s: Store, name: string, attempts: seq<Attempt>)
    requires ValidConfig(c)
    ensures var r := FetchLoop(c, s, name, attempts);
      r.range.Some? ==>
        && (forall j :: 0 <= j < r.used - 1 ==> FailsAt(c, s, name, attempts, j))
        && FetchSequence(c, Replay(c, s, name, attempts, r.used - 1), name, attempts[r.used - 1]) == Fetch(r.range, r.store)
    ensures var r := FetchLoop(c, s, name, attempts);
      r.range.None? ==>
        && (forall j :: 0 <= j < |attempts| ==> FailsAt(c, s, name, attempts, j))
        && r.store == Replay(c, s, name, attempts, |attempts|)
    decreases |attempts|
  {
    if attempts != [] {
      var f := FetchSequence(c, s, name, attempts[0]);
      if f.range.None? {
        var rest := attempts[1..];
        assert FailsAt(c, s, name, attempts, 0);
        FetchLoopFirstSuccess(c, f.store, name, rest);
        forall j | 1 <= j < |attempts|
          ensures FailsAt(c, s, name, attempts, j) == FailsAt(c, f.store, name, rest, j - 1)
        {
          ReplayShift(c, s, name, attempts, j - 1);
        }
        var r := FetchLoop(c, f.store, name, rest);
        if r.range.Some? {
          assert attempts[r.used] == rest[r.used - 1];
          forall j | 0 <= j < r.used
            ensures FailsAt(c, s, name, attempts, j)
          {
            if j > 0 {
              assert FailsAt(c, f.store, name, rest, j - 1);
            }
          }
        } else {
          forall j | 0 <= j < |attempts|
            ensures FailsAt(c, s, name, attempts, j)
          {
            if j > 0 {
              assert FailsAt(c, f.store, name, rest, j - 1);
            }
          }
        }
      }
    }
  }

  /** fetchRange: at most retryTimes round-trips, the first range obtained, or none. */
  function FetchRange(c: Config, s: Store, name: string, attempts: seq<Attempt>): (r: Fetched)
    requires ValidConfig(c)
    requires |attempts| >= c.retryTimes
    ensures r.used <= c.retryTimes
    ensures r.range.None? ==> r.used == c.retryTimes
    ensures r.range.Some? ==> 0 < r.used
    ensures r.range.Some? ==> Valid(r.range.value) && Fresh(r.range.value)
    ensures r.range.Some? ==> Read(r.store, name) == Some(r.range.value.finish)
    ensures OthersUnchanged(s, r.store, name)
  {
    FetchLoop(c, s, name, attempts[..c.retryTimes])
  }

  // ------------------------------------------------------------ the driver

  /** The shared store and this process's cache of ranges, one per sequence name. */
  datatype State = State(store: Store, cache: map<string, Range>)

  /** Every cached range is one the constructor accepted. */
  ghost predicate CacheValid(cache: map<string, Range>)
  {
    forall m :: m in cache ==> Valid(cache[m])
  }

  /** Cache entries of every name other than `name` are untouched. */
  ghost predicate OtherEntriesUnchanged(cache: map<string, Range>, cache': map<string, Range>, name: string)
  {
    && (forall m :: m != name ==> (m in cache' <==> m in cache))
    && (forall m :: m != name && m in cache ==> cache'[m] == cache[m])
  }

  /** Result of one call of next: the value or the exception, and the state afterwards. */
  datatype Served = Served(result: Result<int, Error>, state: State)

  /** Fetch a range for `name` (whose cache entry is gone), cache it, and serve its first value. */
  function Refill(c: Config, store: Store, cache: map<string, Range>, name: string, attempts: seq<Attempt>): (r: Served)
    requires ValidConfig(c)
    requires |attempts| >= c.retryTimes
    requires name !in cache
    ensures var f := FetchRange(c, store, name, attempts);
      && r.state.store == f.store
      && (f.range.Some? ==>
            && r.result == Success(f.range.value.start)
            && r.state.cache == cache[name := f.range.value.(current := f.range.value.start)])
      && (f.range.None? ==> r.result == Failure(Unavailable) && r.state.cache == cache)
  {
    var f := FetchRange(c, store, name, attempts);
    if f.range.Some? then
      var d := NextValue(f.range.value);
      if d.value.Some? then Served(Success(d.value.value), State(f.store, cache[name := d.range]))
      else Served(Failure(Unavailable), State(f.store, cache))
    else Served(Failure(Unavailable), State(f.store, cache))
  }

  /**
   * next(name). A null (None) or over-long name is rejected first. Then the
   * cached range is asked for a value; an exhausted one is dropped and a
   * fresh range is fetched, cached once it has yielded a value, and its
   * value returned. If no range can be fetched, Unavailable.
   */
  function Next(c: Config, st: State, name: Option<string>, attempts: seq<Attempt>): (r: Served)
    requires ValidConfig(c)
    requires |attempts| >= c.retryTimes
    ensures r.result == Failure(IllegalArgument) <==> !NameAccepted(name)
    ensures !NameAccepted(name) ==> r.state == st
    ensures NameAccepted(name) && r.result.Failure? ==>
      r.result.error == Unavailable && name.value !in r.state.cache
    ensures r.result.Success? ==>
      name.value in r.state.cache && r.state.cache[name.value].current == r.result.value
    ensures CacheValid(st.cache) ==> CacheValid(r.state.cache)
    ensures CacheValid(st.cache) && r.result.Success? ==>
      0 < r.state.cache[name.value].start <= r.result.value <= r.state.cache[name.value].finish
    ensures NameAccepted(name) ==> OtherEntriesUnchanged(st.cache, r.state.cache, name.value)
    ensures NameAccepted(name) ==> OthersUnchanged(st.store, r.state.store, name.value)
  {
    if name.None? || Utf16Length(name.value) > MaxSequenceNameLength then Served(Failure(IllegalArgument), st)
    else
      var n := name.value;
      if n in st.cache then
        var d := NextValue(st.cache[n]);
        if d.value.Some? then Served(Success(d.value.value), st.(cache := st.cache[n := d.range]))
        else Refill(c, st.store, st.cache - {n}, n, attempts)
      else Refill(c, st.store, st.cache, n, attempts)
  }

  /** The interface's next(): the default sequence, which never fails the name check. */
  function NextDefault(c: Config, st: State, attempts: seq<Attempt>): (r: Served)
    requires ValidConfig(c)
    requires |attempts| >= c.retryTimes
    ensures r == Next(c, st, Some(DefaultSequenceName), attempts)
    ensures r.result != Failure(IllegalArgument)
  {
    Next(c, st, Some(DefaultSequenceName), attempts)
  }

  /** init: reject minValue >= maxValue, then draw one value of the default sequence as a liveness probe. */
  function Init(c: Config, st: State, attempts: seq<Attempt>): (r: Served)
    requires ValidConfig(c)
    requires |attempts| >= c.retryTimes
    ensures c.minValue >= c.maxValue ==> r == Served(Failure(IllegalArgument), st)
    ensures c.minValue < c.maxValue ==> r == NextDefault(c, st, attempts)
    ensures c.minValue < c.maxValue ==> r.result != Failure(IllegalArgument)
  {
    if c.minValue >= c.maxValue then Served(Failure(IllegalArgument), st)
    else NextDefault(c, st, attempts)
  }
}

=== FILE: service_lemmas.dfy ===
/**
 * Properties of the allocation protocol across its branches and across
 * calls: what one round-trip writes and owns in each case, how a lost race
 * is retried, what next does with a live, an exhausted or a missing cache
 * entry, and the repeated value at a segment boundary.
 */
module ServiceLemmas {

  import opened Wrappers
  import opened SequenceApi
  import opened ValueRanges
  import opened SequenceStore
  import opened SequenceService

  // ------------------------------------------------ one round-trip, by case

  /** First use: the row is created holding minValue+step-1 and the range is [minValue, minValue+step-1]. */
  lemma FirstUse(c: Config, s: Store, name: string)
    requires ValidConfig(c)
    requires name !in s
    ensures FetchSequence(c, s, name, Go(Idle))
      == Fetch(Some(Range(c.minValue, InitialValue(c), c.minValue - 1)), s[name := InitialValue(c)])
  {
  }

  /** First use, but a rival created the row first: the insert is rejected and the rival's row stays. */
  lemma FirstUseLostRace(c: Config, s: Store, name: string, x: int)
    requires ValidConfig(c)
    requires name !in s
    ensures FetchSequence(c, s, name, Go(Wrote(x))) == Fetch(None, s[name := x])
  {
  }

  /** Normal extension of a row holding v: the row becomes v+step and the range is [v, v+step], starting at v itself. */
  lemma Extend(c: Config, s: Store, name: string)
    requires ValidConfig(c)
    requires name in s && 0 < s[name] && s[name] + c.step <= c.maxValue
    ensures FetchSequence(c, s, name, Go(Idle))
      == Fetch(Some(Range(s[name], s[name] + c.step, s[name] - 1)), s[name := s[name] + c.step])
  {
  }

  /**
   * Overflow: when v+step passes maxValue the row is reset to minValue+step-1
   * and the range is [minValue, minValue+step-1]; no shorter segment up to
   * maxValue is handed out first.
   */
  lemma Wrap(c: Config, s: Store, name: string)
    requires ValidConfig(c)
    requires name in s && s[name] + c.step > c.maxValue
    ensures FetchSequence(c, s, name, Go(Idle))
      == Fetch(Some(Range(c.minValue, InitialValue(c), c.minValue - 1)), s[name := InitialValue(c)])
  {
  }

  /**
   * Compare-and-swap discipline: with a row read as v, the write lands only if
   * the row still holds v when the write runs; otherwise the table is left as
   * the rivals left it and the attempt yields nothing.
   */
  lemma CasOnlyIfUnchanged(c: Config, s: Store, name: string, rival: Rival)
    requires ValidConfig(c)
    requires name in s
    ensures var t := Interfere(s, name, rival);
      var f := FetchSequence(c, s, name, Go(rival));
      && (Read(t, name) != Some(s[name]) ==> f == Fetch(None, t))
      && (Read(t, name) == Some(s[name]) ==>
            f.store == t[name := if s[name] + c.step > c.maxValue then InitialValue(c) else s[name] + c.step])
  {
  }

  /**
   * A stored value that is not positive: the compare-and-swap still advances
   * the row, but the range [v, v+step] is rejected by its constructor, so the
   * attempt fails having consumed a segment.
   */
  lemma NonPositiveMarkBurnsSegment(c: Config, s: Store, name: string)
    requires ValidConfig(c)
    requires name in s && s[name] <= 0 && s[name] + c.step <= c.maxValue
    ensures FetchSequence(c, s, name, Go(Idle)) == Fetch(None, s[name := s[name] + c.step])
  {
  }

  // ------------------------------------------------------- the retry loop

  /** Round-trips that all hit store errors leave the table as it was and yield nothing. */
  lemma {:induction false} FaultsChangeNothing(c: Config, s: Store, name: string, attempts: seq<Attempt>)
    requires ValidConfig(c)
    requires forall j :: 0 <= j < |attempts| ==> attempts[j] == StoreFault
    ensures FetchLoop(c, s, name, attempts) == Fetched(None, s, |attempts|)
    decreases |attempts|
  {
    if attempts != [] {
      FaultsChangeNothing(c, s, name, attempts[1..]);
    }
  }

  /**
   * A lost race is retried: the loser's second round-trip reads the winner's
   * value x and extends from there.
   */
  lemma RetryAfterLostRace(c: Config, s: Store, name: string, x: int, attempts: seq<Attempt>)
    requires ValidConfig(c) && c.retryTimes >= 2 && |attempts| >= c.retryTimes
    requires name in s && x != s[name] && s[name] + c.step <= c.maxValue
    requires 0 < x && x + c.step <= c.maxValue
    requires attempts[0] == Go(Wrote(x)) && attempts[1] == Go(Idle)
    ensures var r := FetchRange(c, s, name, attempts);
      && r.used == 2
      && r.range == Some(Range(x, x + c.step, x - 1))
      && r.store == s[name := x + c.step]
  {
    var a := attempts[..c.retryTimes];
    var f := FetchSequence(c, s, name, a[0]);
    assert f == Fetch(None, s[name := x]);
    assert a[1..][0] == Go(Idle);
    Extend(c, s[name := x], name);
    var g := FetchSequence(c, f.store, name, a[1..][0]);
    assert g.range == Some(Range(x, x + c.step, x - 1));
    assert FetchLoop(c, f.store, name, a[1..]) == Fetched(g.range, g.store, 1);
  }

  // ------------------------------------------------------------ the driver

  /** A cached range with values left serves the next one; the table and the other entries stay as they were. */
  lemma CacheHit(c: Config, st: State, name: string, attempts: seq<Attempt>)
    requires ValidConfig(c) && |attempts| >= c.retryTimes
    requires NameAccepted(Some(name))
    requires name in st.cache && Remaining(st.cache[name]) > 0
    ensures var r := Next(c, st, Some(name), attempts);
      && r.result == Success(st.cache[name].current + 1)
      && r.state.store == st.store
      && r.state.cache.Keys == st.cache.Keys
      && r.state.cache[name] == st.cache[name].(current := st.cache[name].current + 1)
  {
  }

  /**
   * A missing or exhausted cache entry: the service fetches a range, and on
   * success caches it after its first value, which is the value returned;
   * the table then records that range's end.
   */
  lemma RefillServesRangeStart(c: Config, st: State, name: string, attempts: seq<Attempt>)
    requires ValidConfig(c) && |attempts| >= c.retryTimes
    requires NameAccepted(Some(name))
    requires name in st.cache ==> Remaining(st.cache[name]) == 0
    ensures var r := Next(c, st, Some(name), attempts);
      var f := FetchRange(c, st.store, name, attempts);
      && r.state.store == f.store
      && (f.range.Some? ==>
            && r.result == Success(f.range.value.start)
            && r.state.cache[name] == f.range.value.(current := f.range.value.start)
            && Read(r.state.store, name) == Some(f.range.value.finish))
      && (f.range.None? ==> r.result == Failure(Unavailable) && name !in r.state.cache)
  {
  }

  /** When every round-trip hits a store error, next fails, drops the entry, and leaves the table alone. */
  lemma AllAttemptsFail(c: Config, st: State, name: string, attempts: seq<Attempt>)
    requires ValidConfig(c) && |attempts| >= c.retryTimes
    requires NameAccepted(Some(name))
    requires name in st.cache ==> Remaining(st.cache[name]) == 0
    requires forall j :: 0 <= j < |attempts| ==> attempts[j] == StoreFault
    ensures var r := Next(c, st, Some(name), attempts);
      && r.result == Failure(Unavailable)
      && r.state.store == st.store
      && r.state.cache == st.cache - {name}
  {
    FaultsChangeNothing(c, st.store, name, attempts[..c.retryTimes]);
  }

  /** The very first value of a new sequence is minValue, and the row records minValue+step-1. */
  lemma FirstValueIsMin(c: Config, st: State, name: string, attempts: seq<Attempt>)
    requires ValidConfig(c) && |attempts| >= c.retryTimes
    requires NameAccepted(Some(name))
    requires name !in st.cache && name !in st.store
    requires attempts[0] == Go(Idle)
    ensures var r := Next(c, st, Some(name), attempts);
      && r.result == Success(c.minValue)
      && r.state.store == st.store[name := InitialValue(c)]
      && r.state.cache == st.cache[name := Range(c.minValue, InitialValue(c), c.minValue)]
  {
    FirstUse(c, st.store, name);
  }

  /**
   * Segments overlap by one value: when this process drained the segment
   * that ends at the stored mark, the next segment starts at that mark, so
   * the next value served repeats the last value the old segment served.
   * This holds when finish+step does not pass maxValue (otherwise the fetch
   * resets to minValue) and the first round-trip is uncontended.
   */
  lemma RefreshRepeatsLastValue(c: Config, st: State, name: string, attempts: seq<Attempt>)
    requires ValidConfig(c) && |attempts| >= c.retryTimes
    requires NameAccepted(Some(name))
    requires name in st.cache && Valid(st.cache[name]) && Remaining(st.cache[name]) == 0
    requires Read(st.store, name) == Some(st.cache[name].finish)
    requires st.cache[name].finish + c.step <= c.maxValue
    requires attempts[0] == Go(Idle)
    ensures Next(c, st, Some(name), attempts).result == Success(st.cache[name].finish)
  {
    Extend(c, st.store, name);
  }

  /**
   * Values are not unique across segments: with step 1, the first two calls
   * of next() on an empty table both return 1.
   */
  lemma FirstTwoValuesCoincide(attempts: seq<Attempt>)
    requires |attempts| >= 10
    requires forall j :: 0 <= j < |attempts| ==> attempts[j] == Go(Idle)
    ensures var c := DefaultConfig.(step := 1);
      var r1 := NextDefault(c, State(map[], map[]), attempts);
      var r2 := NextDefault(c, r1.state, attempts);
      r1.result == Success(1) && r2.result == Success(1)
  {
    var c := DefaultConfig.(step := 1);
    var st := State(map[], map[]);
    var name := DefaultSequenceName;
    var st1 := State(map[name := 1], map[name := Range(1, 1, 1)]);
    assert Next(c, st, Some(name), attempts) == Served(Success(1), st1) by {
      NameBounds(name);
      FirstValueIsMin(c, st, name, attempts);
    }
    assert Next(c, st1, Some(name), attempts).result == Success(1) by {
      NameBounds(name);
      RefreshRepeatsLastValue(c, st1, name, attempts);
    }
  }
}

=== FILE: store.dfy ===
/**
 * The sequence table, abstracted to a map from sequence name to the stored
 * high-water mark, with the three statements the service issues against it:
 * the SELECT by name, the INSERT of a new row, and the conditional UPDATE
 * (compare-and-swap on the old value).
 */
module SequenceStore {

  import opened Wrappers

  /** One row per sequence name: name -> stored value. */
  type Store = map<string, int>

  /** SELECT value FROM table WHERE name=? — None when there is no row. */
  function Read(s: Store, name: string): (r: Option<int>)
    ensures r.Some? <==> name in s
    ensures r.Some? ==> r.value == s[name]
  {
    if name in s then Some(s[name]) else None
  }

  /** An executed write statement: its affected-row count and the table afterwards. */
  datatype Write = Write(count: nat, store: Store)

  /**
   * INSERT INTO table(name, value) VALUES(?, ?). The name is the primary key,
   * so inserting a name that already has a row raises an error (None here).
   */
  function Insert(s: Store, name: string, value: int): (r: Option<Write>)
    ensures r.None? <==> name in s
    ensures r.Some? ==> r.value.count == 1
    ensures r.Some? ==> name in r.value.store && r.value.store[name] == value
    ensures r.Some? ==> r.value.store.Keys == s.Keys + {name}
    ensures r.Some? ==> forall m :: m in s ==> r.value.store[m] == s[m]
  {
    if name in s then None else Some(Write(1, s[name := value]))
  }

  /**
   * UPDATE table SET value=? WHERE name=? AND value=?: one row changes if the
   * row still holds `expected`; otherwise nothing changes and the count is 0.
   */
  function Cas(s: Store, name: string, expected: int, value: int): (w: Write)
    ensures w.count > 0 <==> name in s && s[name] == expected
    ensures w.count <= 1
    ensures w.store.Keys == s.Keys
    ensures w.count > 0 ==> w.store[name] == value
    ensures forall m :: m in s && (m != name || w.count == 0) ==> w.store[m] == s[m]
  {
    if name in s && s[name] == expected then Write(1, s[name := value]) else Write(0, s)
  }

  /**
   * What other processes did to one row between this process's SELECT and
   * its write: nothing, wrote some value into it, or deleted it.
   */
  datatype Rival = Idle | Wrote(row: int) | Deleted

  /** The table as this process's write finds it. Only the contended row can differ. */
  function Interfere(s: Store, name: string, rival: Rival): (t: Store)
    ensures forall m :: m != name ==> (m in t <==> m in s)
    ensures forall m :: m != name && m in s ==> t[m] == s[m]
    ensures rival.Idle? ==> t == s
    ensures rival.Wrote? ==> Read(t, name) == Some(rival.row)
    ensures rival.Deleted? ==> Read(t, name) == None
  {
    match rival
    case Idle => s
    case Wrote(v) => s[name := v]
    case Deleted => s - {name}
  }
}

=== FILE: value_range.dfy ===
/**
 * The range cursor (NTValueRange): a closed interval [start, finish] of
 * identifier space reserved in the store, with a counter that hands out
 * its values one call at a time.
 */
module ValueRanges {

  import opened Wrappers
  import opened SequenceApi

  /** `current` is the last value handed out; it starts one below `start`. */
  datatype Range = Range(start: int, finish: int, current: int)

  /** What the constructor guarantees, plus the counter never falling below its initial value. */
  predicate Valid(r: Range)
  {
    0 < r.start <= r.finish && r.start - 1 <= r.current
  }

  /** A range nothing has been drawn from yet. */
  predicate Fresh(r: Range)
  {
    r.current == r.start - 1
  }

  /** Number of values a range still has to give. */
  function Remaining(r: Range): nat
  {
    if r.current < r.finish then r.finish - r.current else 0
  }

  /** from(start, finish): rejects the bounds unless 0 < start <= finish. */
  function From(start: int, finish: int): (r: Result<Range, Error>)
    ensures r.Success? <==> 0 < start <= finish
    ensures r.Failure? ==> r.error == IllegalArgument
    ensures r.Success? ==> Valid(r.value) && Fresh(r.value)
    ensures r.Success? ==> r.value.start == start && r.value.finish == finish
    ensures r.Success? ==> Remaining(r.value) == finish - start + 1
  {
    if start <= 0 || start > finish then Failure(IllegalArgument)
    else Success(Range(start, finish, start - 1))
  }

  /** One call of nextValue: the value it returns (if any) and the range afterwards. */
  datatype Draw = Draw(value: Option<int>, range: Range)

  /**
   * nextValue: raise the counter by one, whatever happens; hand the new
   * counter out if it has not passed `finish`.
   */
  function NextValue(r: Range): (d: Draw)
    ensures d.range.start == r.start && d.range.finish == r.finish
    ensures d.range.current == r.current + 1
    ensures d.value.Some? <==> Remaining(r) > 0
    ensures d.value.Some? ==> d.value.value == d.range.current
    ensures d.value.Some? ==> Remaining(d.range) == Remaining(r) - 1
    ensures d.value.None? ==> Remaining(d.range) == 0
    ensures Valid(r) ==> Valid(d.range)
    ensures Valid(r) && d.value.Some? ==> r.start <= d.value.value <= r.finish
    ensures Valid(r) && Fresh(r) ==> d.value == Some(r.start)
  {
    var value := r.current + 1;
    Draw(if value <= r.finish then Some(value) else None, r.(current := value))
  }

  /** The values returned by `n` successive calls of nextValue. */
  function Drain(r: Range, n: nat): (vs: seq<Option<int>>)
    ensures |vs| == n
    decreases n
  {
    if n == 0 then []
    else
      var d := NextValue(r);
      [d.value] + Drain(d.range, n - 1)
  }

  /** The range after `n` successive calls of nextValue. */
  function After(r: Range, n: nat): Range
    decreases n
  {
    if n == 0 then r else After(NextValue(r).range, n - 1)
  }

  /** How many calls in a run returned a value. */
  function CountPresent(vs: seq<Option<int>>): nat
  {
    if vs == [] then 0
    else (if vs[0].Some? then 1 else 0) + CountPresent(vs[1..])
  }
}

=== FILE: wrappers.dfy ===
/** Option and Result datatypes shared by the model. */
module Wrappers {

  /** Present-or-absent value, the model of java.util.Optional (and of a nullable reference). */
  datatype Option<+T> = None | Some(value: T)

  /** A computed value or the exception that ended the computation. */
  datatype Result<+R, +E> = Success(value: R) | Failure(error: E)
}
